=== FILE: README.md ===
# fin-stack-server authentication core, in Dafny

This project models the authentication subsystem of the fin-stack-server
bookkeeping backend (Rust, actix-web, Diesel).

- **Flows.** `AuthService` registers and logs in users, and looks up the
  current user from a bearer token. It also parses the `Authorization`
  header.
- **Data.** `UserModel` and `AuthModel` hold the user row and its insertable
  form, the JWT claims, the safe user projection, the token envelope and the
  `(message, code)` error pair.
- **Status tables.** `AuthController` picks the HTTP status for each
  endpoint's result.
- **Middleware.** `AuthMiddleware` models `jwt_validator`: it either
  continues with the claims attached or aborts with a Bearer challenge.
- **Errors.** `AppErrors` models `AppError`: its display text, status codes,
  error bodies and conversions, and the serde field-name extractor.
- **Configuration.** `Config` models the startup validation of the
  environment variables.
- **Helpers.** `Text` and `Uuids` give the Rust string operations and the
  `uuid` text forms the code depends on. `Common` holds the
  `Option`/`Result`/`Outcome` types.

Every operation is a pure function. The inputs are:

- the user table, as a sequence of rows in insertion order;
- an `Infra` value: whether the pool hands out a connection, whether the
  lookup query succeeds, and whether the insert is accepted;
- a `Ports` value holding bcrypt `hash`/`verify` and the JWT `sign`/`validate`
  as functions that may fail;
- the signing secret;
- the clock reading `now`;
- the freshly drawn UUID.

A flow returns either its envelope or an `AuthError`. Register also returns
the table after the call. Login and the current-user lookup only read the
table, so they return no table.

Behaviour worth knowing:

- Register and login take the database connection before any other check, so
  a pool failure wins over a password mismatch. `get_current_user` takes the
  connection only after the header, the token and the subject have been
  checked.
- The token lifetime is fixed at 24 hours. `JWT_EXPIRATION_HOURS` is
  validated at startup but never used.
- The token functions read `JWT_SECRET` on every call. If it is unset they
  fall back to `"your-secret-key"`; `SecretOf` models that choice, and the
  flows take the secret as a parameter. After a start-up that passed
  validation the fallback is never used.
- `iat` and `exp` come from two clock reads. The model reads the clock once,
  so `exp = iat + 86400` whenever the timestamp fits in a `usize`
  (`AsUsize` models the `i64 as usize` cast, which wraps).
- `INVALID_USER_ID` falls into the `_` arm of `me`, so it is answered with
  500, not as a client error.
- The header check accepts only visible ASCII and tab: that is what
  `HeaderValue::to_str` accepts.
- If signing fails after the insert, register reports `TOKEN_ERROR` but the
  new row stays in the table.
- The field-name extractor stops at the next backtick or at the next
  "field `" marker, whichever comes first. That is how
  `split("field `").nth(1)` behaves.
- Rust's `len()` counts UTF-8 bytes. `Utf8Length` computes that count from
  the code points.

## Model

| member | source | states |
|---|---|---|
| `AuthService.Register` | src/services/auth_service.rs:59-135 | The connection is taken first, then the password confirmation, the email lookup, the hash, the insert and the token. A failed pool gives DB_CONNECTION_ERROR, whatever else fails. A mismatch gives PASSWORD_MISMATCH, a failed lookup DB_QUERY_ERROR, a taken email EMAIL_EXISTS and a failed hash HASH_ERROR. A refused insert or a clashing id gives USER_CREATION_ERROR. In each of these cases the table is unchanged. Register succeeds iff every check passes, the insert is accepted, the id is free and signing the new row's token succeeds. When signing fails there, the result is TOKEN_ERROR and the row stays. At most one row is added, and only when neither the email nor the id is already present. That row holds the request's names and email, the hash output as its password, the fresh id, and equal creation and update times. Success returns a "Bearer" envelope with expires_in 86400 and the new row's projection. |
| `AuthService.Login` | src/services/auth_service.rs:138-194 | A failed pool gives DB_CONNECTION_ERROR and a failed query gives DB_QUERY_ERROR. An unknown email gives INVALID_CREDENTIALS. For the row the lookup returns, bcrypt failing gives VERIFICATION_ERROR (in both directions), verify saying false gives INVALID_CREDENTIALS, and verify saying true with signing failing gives TOKEN_ERROR. Login succeeds iff pool and query work, a row matches, verify says true and signing succeeds. It then returns that row's projection and signed token. |
| `AuthService.GetCurrentUser` | src/services/auth_service.rs:197-232 | Header errors are passed through unchanged, and an invalid token gives INVALID_TOKEN. A subject that is not a UUID gives INVALID_USER_ID, before any connection is requested. Once the subject parses, a failed pool gives DB_CONNECTION_ERROR and a failed query DB_QUERY_ERROR. With both working, the result is the row with that id, or USER_NOT_FOUND when no row has it. |
| `AuthService.ExtractToken` | src/services/auth_service.rs:235-258 | A missing header gives MISSING_AUTH_HEADER. A header that is not visible ASCII gives INVALID_AUTH_HEADER. A header without the case-sensitive "Bearer " prefix gives INVALID_AUTH_FORMAT. On success, "Bearer " + token is exactly the header text. |
| `AuthService.ExtractTokenRoundTrip` | src/services/auth_service.rs:251-258 | A header `Bearer <token>` made of header characters yields exactly `<token>`. |
| `AuthService.HeaderToStr` | src/services/auth_service.rs:244-249 | Decoding succeeds iff every byte is a tab or in 32..126. It then keeps each byte as one character. |
| `AuthService.FindUser` | src/services/auth_service.rs:77-84 | The result is a stored row matching the email filter or the id. There is no result iff no row matches. |
| `AuthService.FindUserAppend` | src/services/auth_service.rs:108-111 | After an insert, a row found before is still the one found. When nothing matched before and the new row matches, the new row is found. |
| `AuthService.TokenClaims` | src/services/auth_service.rs:29-36 | The subject is the user id's lower-case hyphenated text, which parses back to the id. The email is the user's. When the timestamp fits in a usize, iat is now and exp = iat + 86400. |
| `AuthService.GenerateToken` | src/services/auth_service.rs:29-43 | The result is exactly what signing, under the given secret, returns for claims whose subject is the user id's hyphenated text and whose email is the user's. A token comes back iff signing succeeds. With the clock in range, iat is now and exp = now + 86400. |
| `AuthService.Envelope` | src/services/auth_service.rs:124-129 | The envelope carries the token, type "Bearer" and expires_in 86400. Its user has the row's id, names and email. |
| `AuthFlows.RegisterConnectionFirst` | src/services/auth_service.rs:63-74 | With a failed pool, register gives DB_CONNECTION_ERROR and leaves the table unchanged, whatever else is wrong with the request. |
| `AuthFlows.RegisterMismatchTouchesNothing` | src/services/auth_service.rs:68-74 | A password mismatch gives PASSWORD_MISMATCH and leaves the table unchanged. The answer does not depend on the table, the query and insert outcomes, the hash or the id. |
| `AuthFlows.RegisterTakenEmailSkipsHash` | src/services/auth_service.rs:76-91 | A taken email gives EMAIL_EXISTS with the table unchanged. The answer does not depend on the hash function or the insert outcome. |
| `AuthFlows.LoginHidesWhetherEmailExists` | src/services/auth_service.rs:157-174 | An unknown email and a known email with a wrong password give the same error, ("Invalid credentials", "INVALID_CREDENTIALS"). |
| `AuthFlows.RegisterPreservesUniqueness` | src/services/auth_service.rs:76-115 | When registrations run one at a time, unique emails and unique ids stay unique. |
| `AuthFlows.RegisteredUserCanLogIn` | src/services/auth_service.rs:94-193 | When every check before the insert passes, the insert is accepted and signing succeeds, register succeeds. Logging in afterwards with the same email and password then succeeds and returns the same user projection. This assumes bcrypt accepts its own hash. |
| `AuthFlows.RegisteredUserIsCurrentUser` | src/services/auth_service.rs:196-232 | After a successful register, sending its token as `Bearer <token>` before the token expires makes the current-user lookup return the new row. Its projection equals the envelope's user. This assumes the JWT codec decodes, until expiry, what it signed. |
| `AuthFlows.IssuedTokenDecodes` | src/services/auth_service.rs:29-57 | Within 24 hours of issue, a token made by generate_token decodes under validate_token. The decoded claims have the user id's hyphenated text as subject and the user's email, with iat the issue time and exp a day later. This assumes the codec decodes unexpired tokens it signed. |
| `AuthFlows.SecretAfterStartup` | src/services/auth_service.rs:30-47 | Once start-up validation passes, the token functions use the configured JWT_SECRET of at least 32 bytes. The "your-secret-key" fallback is used only when JWT_SECRET is unset, and then start-up validation fails. |
| `AuthModel.NewClaims` | src/models/auth.rs:58-67 | The subject is `user_id.to_string()`, the lower-case hyphenated text, which parses back to user_id. The email and exp are copied unchanged. iat is the construction-time clock reading cast with `as usize`, which is the reading itself when it is in range. |
| `AuthModel.AsUsize` | src/models/auth.rs:64 | The `as usize` cast keeps in-range timestamps and is congruent to the input modulo 2^64. |
| `AuthModel.ToUserInfo` | src/models/auth.rs:38-48 | The projection keeps exactly id, first name, last name and email. |
| `AuthModel.UserInfoHidesPassword` | src/models/auth.rs:38-48 | The projection does not depend on the password hash. |
| `AuthModel.CodeDeterminesKind` | src/services/auth_service.rs:63-256 | The fifteen code strings the flows report are pairwise distinct, so the code alone identifies the failure. |
| `AuthModel.ErrorOfInjective` | src/models/auth.rs:69-75 | Each failure is reported as the pair of its message and code. Distinct failures give distinct pairs. |
| `UserModel.CreateNewUser` | src/models/user.rs:54-65 | The names, email and password are copied. The id is the generator's draw. created_at equals updated_at. |
| `UserModel.IntoUser` | src/models/user.rs:67-77 | Every field is preserved, including the id and both timestamps. |
| `UserModel.NewUserIdIgnoresFields` | src/models/user.rs:57 | The assigned id depends only on the generator, not on the other fields. |
| `Uuids.ToString` | src/models/auth.rs:61 | The subject is 36 characters long, with hyphens exactly at positions 8, 13, 18 and 23. Every other position holds a lower-case hex digit. Digit j of the id sits at its place in the 8-4-4-4-12 grouping. |
| `Uuids.ParseToString` | src/services/auth_service.rs:208-212 | Parsing the hyphenated lower-case text of an id gives that id back. |
| `Uuids.ToStringInjective` | src/models/auth.rs:61 | Distinct ids give distinct subjects. |
| `Uuids.ParseHyphenated` | src/services/auth_service.rs:208 | The hyphenated form parses iff it has hyphens exactly at 8, 13, 18 and 23 and a hex digit of either case everywhere else. Digit j of the result is the value of the character at its place in the 8-4-4-4-12 grouping. |
| `Uuids.Parse` | src/services/auth_service.rs:208 | Only texts of length 32, 36, 38 or 45 can parse. A 32-character text parses iff it is all hex digits of either case, to those digits in order. A 36-character text parses iff it has hyphens at 8, 13, 18 and 23 and hex digits elsewhere, to the digits in order. A 38-character text parses iff it is braced and its inside parses as the hyphenated form. A 45-character text parses iff it starts with "urn:uuid:" and the rest parses as the hyphenated form. |
| `AuthController.RegisterResponse` | src/controllers/auth_controller.rs:21-28 | Success gives 201 with the envelope. EMAIL_EXISTS gives 409 and PASSWORD_MISMATCH gives 400, in both directions. Every other code gives 500 with the error as body. |
| `AuthController.LoginResponse` | src/controllers/auth_controller.rs:46-52 | Success gives 200. INVALID_CREDENTIALS gives 401, in both directions. Every other code gives 500. |
| `AuthController.MeResponse` | src/controllers/auth_controller.rs:72-90 | Success gives 200 with the UserInfo projection. The four header and token codes give 401, and USER_NOT_FOUND gives 404, both in both directions. Every other code gives 500. |
| `AuthController.LogoutResponse` | src/controllers/auth_controller.rs:106-112 | Always 200 with the message "Logout successful. Please delete the token from client storage.". It takes no state. |
| `AuthController.MeStatusTable` | src/controllers/auth_controller.rs:83-89 | Matching on code strings agrees with a closed table over error kinds. INVALID_USER_ID gives 500. |
| `AuthController.RegisterStatuses` | src/controllers/auth_controller.rs:21-28 | /auth/register gives 201 iff registration succeeds. It gives 400 iff the pool works and the passwords differ. It gives 409 iff the pool works, the passwords match, the query works and the email is taken. |
| `AuthController.LoginStatuses` | src/controllers/auth_controller.rs:46-52 | /auth/login gives 200 iff login succeeds. It gives 401 iff the pool and query work and either the email is unknown or verify cleanly says no. |
| `AuthController.MeUnauthorizedStatuses` | src/controllers/auth_controller.rs:83-86 | /auth/me gives 401 iff the header or the token is bad. |
| `AuthController.MeLookupStatuses` | src/controllers/auth_controller.rs:72-87 | With a well-formed subject and a working store, /auth/me gives 404 iff no row has that id. Otherwise it gives 200 with that row's projection. |
| `AuthController.MeServerErrors` | src/controllers/auth_controller.rs:83-89 | A subject that is not a UUID, a failed pool or a failed query gives 500. |
| `AuthMiddleware.JwtValidator` | src/middleware/auth_middleware.rs:38-60 | The validator runs on exactly the bearer token. The request continues iff validation succeeds, with exactly the decoded claims attached and nothing else changed. Otherwise it aborts with the request unchanged and the challenge of ChallengeFor: scope "Bearer" and the realm from the app's Config. |
| `AuthMiddleware.ChallengeFor` | src/middleware/auth_middleware.rs:50-57 | The challenge has scope "Bearer" and keeps the realm of the app's Config, or has none. |
| `AuthMiddleware.MiddlewareAgreesWithService` | src/middleware/auth_middleware.rs:42-58 | The middleware aborts on a token iff `/auth/me` reports INVALID_TOKEN for `Bearer <token>`. |
| `AppErrors.Display` | src/config/errors.rs:33-44 | The text is the variant's fixed label followed by its message. |
| `AppErrors.DisplayInjective` | src/config/errors.rs:33-44 | Equal display texts come from equal errors. |
| `AppErrors.StatusCode` | src/config/errors.rs:46-56 | Database and InternalServer give 500. Validation and BadRequest give 400. NotFound gives 404 and Unauthorized gives 401. Each holds in both directions. |
| `AppErrors.ErrorResponseOf` | src/config/errors.rs:58-75 | The HTTP status and the body's status are status_code. `error` is the display text and `message` the variant's summary. |
| `AppErrors.ErrorResponseInjective` | src/config/errors.rs:58-75 | Different errors give different responses. |
| `AppErrors.FromDiesel` | src/config/errors.rs:79-89 | Only Diesel's NotFound gives NotFound (404). Every other Diesel error becomes Database (500) carrying its text. |
| `AppErrors.FromPool` | src/config/errors.rs:92-97 | Every r2d2 error becomes Database (500). |
| `AppErrors.FromJsonPayload` | src/config/errors.rs:100-123 | Exactly data deserialize errors become Validation, carrying the extracted field name. ContentType, syntax and other payload errors become BadRequest. All give 400. |
| `AppErrors.JsonErrorHandler` | src/config/errors.rs:133-143 | A payload error is answered with 400. The body's error is the converted error's display text. |
| `AppErrors.FromUuidError` | src/config/errors.rs:126-130 | A uuid parse error becomes BadRequest (400). |
| `AppErrors.FieldName` | src/config/errors.rs:107-115 | Without a "field `" marker the result is "unknown". Otherwise it is the longest prefix of the text after the first marker that contains no backtick and no marker start. The result never contains a backtick. |
| `AppErrors.BadRequestResponse` | src/config/errors.rs:151-158 | Status 400 in the response and the body. The message and the optional error are copied. |
| `AppErrors.NotFoundResponse` | src/config/errors.rs:161-168 | Status 404 in the response and the body. The message and the optional error are copied. |
| `AppErrors.ServerErrorResponse` | src/config/errors.rs:171-178 | Status 500 in the response and the body. The message and the optional error are copied. |
| `AppErrors.UnauthorizedResponse` | src/config/errors.rs:181-188 | Status 401 in the response and the body. The message and the optional error are copied. |
| `AppErrors.OkResponse` | src/config/errors.rs:191-193 | Status 200 with the data unchanged. |
| `AppErrors.CreatedResponse` | src/config/errors.rs:196-198 | Status 201 with the data unchanged. |
| `AppErrors.HelpersMatchStatusCodes` | src/config/errors.rs:151-188 | Each helper's status equals status_code of the matching variant. |
| `Config.Require` | src/config/mod.rs:10-11 | Reading a variable succeeds iff it is set, returns its value unchanged, and otherwise names the missing variable. |
| `Config.GetDatabaseUrl` | src/config/mod.rs:8-12 | Succeeds iff DATABASE_URL is set. |
| `Config.GetServerUrl` | src/config/mod.rs:16-20 | Succeeds iff SERVER_URL is set. |
| `Config.GetRustLog` | src/config/mod.rs:49-53 | Succeeds iff RUST_LOG is set. |
| `Config.GetJwtSecret` | src/config/mod.rs:24-34 | Succeeds iff JWT_SECRET is set and is at least 32 bytes in UTF-8. The secret is returned unchanged. |
| `Config.GetJwtExpirationHours` | src/config/mod.rs:38-45 | Succeeds iff the variable is set and parses as a u64. The value is below 2^64. |
| `Config.GetEnvironment` | src/config/mod.rs:57-66 | Accepts exactly "development", "staging" and "production". |
| `Config.ValidateProductionConfig` | src/config/mod.rs:91-105 | Passes iff the secret is valid, at least 64 bytes and contains neither "dev" nor "test", and the database URL contains neither "passw0rd" nor "password". |
| `Config.ValidateEnvironment` | src/config/mod.rs:70-88 | Passes iff an order-free statement of all requirements holds; the production checks apply iff ENVIRONMENT is "production". A missing DATABASE_URL is reported first. A production-only failure needs ENVIRONMENT = "production". |
| `Config.ProductionIsStricter` | src/config/mod.rs:85-97 | A configuration accepted outside production, with "dev" in the secret, is refused once ENVIRONMENT is "production". |
| `Text.ParseU64` | src/config/mod.rs:43-44 | Accepts an optional "+" followed by one or more ASCII digits. The value must be below 2^64. The empty string and "+" are rejected. |
| `Text.ParseDecimalRoundTrip` | src/config/mod.rs:43-44 | Parsing the decimal text of any 64-bit value gives that value. |
| `Text.Utf8Length` | src/config/mod.rs:29 | The byte length is between the character count and four times it. It equals the character count iff the text is ASCII. |
| `Text.Contains` | src/config/mod.rs:95 | The text contains the pattern iff the pattern occurs at some index. |
| `Text.IndexOf` | src/config/errors.rs:110 | The result is an occurrence with none before it, or there is no occurrence at all. |

## Left out

- bcrypt hashing and jsonwebtoken HS256 encoding and decoding, including the
  library's expiry and leeway rules. They are the `Ports` functions, and
  their correctness is a hypothesis of the lemmas that need it.
- The clock, `Uuid::new_v4` and reading `JWT_SECRET` per call are
  parameters. `SecretOf` gives the fallback rule.
- The environment is a map from strings to strings, so it cannot hold a value
  that is not valid Unicode. For such a value `env::var` fails with
  `NotUnicode`: start-up panics, and the token functions fall back to
  `"your-secret-key"`. That case is not modelled.
- AuthService.FindUser: Diesel's `.first()` adds `LIMIT 1` without an
  `ORDER BY`, so with several matching rows the database may return any of
  them. The model returns the earliest inserted one. Its contract promises
  only some matching row.
- `NaiveDateTime` precision is not modelled: user timestamps are the same
  integer clock reading.
- The `expect` on `checked_add_signed`, which panics only at chrono's
  maximum date, is not modelled.
- actix request and response objects, JSON serialisation and async execution
  are not modelled. A header is the first `Authorization` value as bytes, and
  a response is a status plus a body datatype.
- actix-web-httpauth's own parsing of the bearer credential before
  `jwt_validator` runs is not modelled. The validator receives the token it
  extracted, and other request extensions are summarised by an opaque `rest`.
- Pool construction with retries, migrations and the exact Diesel queries are
  not modelled. The lookup and insert outcomes are flags. The insert also
  fails on a primary-key clash. A database-level unique constraint on email
  is not modelled, because the migrations are not part of this model.
- Concurrent registrations racing on one email are not modelled;
  `AuthFlows.RegisterPreservesUniqueness` holds for calls in sequence only.
- `log::error!` calls, `dotenv` loading, `println!` output and the panic
  message texts are not modelled. A panic is `Fail` with the failing check
  named.
- Uuids.Parse: the uuid crate dispatches on byte length. The model counts
  characters, which accepts the same strings because every accepted form is
  ASCII.
- Income and expense services, controllers, models and routes, health
  routes, `main.rs` and the generated schema are not part of this model.
  Each is a single ORM query or wiring.

=== FILE: app_errors.dfy ===
/** The application error type and its conversions (src/config/errors.rs). */
module AppErrors {
  import opened Common
  import opened Text

  datatype AppError =
    | Database(msg: string)
    | Validation(msg: string)
    | NotFound(msg: string)
    | Unauthorized(msg: string)
    | BadRequest(msg: string)
    | InternalServer(msg: string)

  /** The fixed label `Display` puts before each variant's message. */
  function Label(e: AppError): string {
    match e
    case Database(_) => "Database error: "
    case Validation(_) => "Validation error: "
    case NotFound(_) => "Not found: "
    case Unauthorized(_) => "Unauthorized: "
    case BadRequest(_) => "Bad request: "
    case InternalServer(_) => "Internal server error: "
  }

  /** `impl Display for AppError`. */
  function Display(e: AppError): (s: string)
    ensures Label(e) <= s && s[|Label(e)|..] == e.msg
  {
    Label(e) + e.msg
  }

  /** The labels start with distinct letters, so the displayed text
      determines the error it came from. */
  lemma DisplayInjective(e1: AppError, e2: AppError)
    requires Display(e1) == Display(e2)
    ensures e1 == e2
  {
    assert Display(e1)[0] == Label(e1)[0] && Display(e2)[0] == Label(e2)[0];
    assert Label(e1) == Label(e2);
    assert e1.msg == Display(e1)[|Label(e1)|..];
  }

  /** `ResponseError::status_code`. */
  function StatusCode(e: AppError): (status: nat)
    ensures status == 500 <==> e.Database? || e.InternalServer?
    ensures status == 400 <==> e.Validation? || e.BadRequest?
    ensures status == 404 <==> e.NotFound?
    ensures status == 401 <==> e.Unauthorized?
  {
    match e
    case Database(_) => 500
    case Validation(_) => 400
    case NotFound(_) => 404
    case Unauthorized(_) => 401
    case BadRequest(_) => 400
    case InternalServer(_) => 500
  }

  /** The client-facing summary `error_response` puts in `message`. */
  function Summary(e: AppError): string {
    match e
    case Database(_) => "Database operation failed"
    case Validation(_) => "Validation failed"
    case NotFound(_) => "Resource not found"
    case Unauthorized(_) => "Unauthorized access"
    case BadRequest(_) => "Invalid request"
    case InternalServer(_) => "Internal server error"
  }

  /** The JSON error body. */
  datatype ErrorResponse = ErrorResponse(message: string, error: Option<string>, status: nat)

  datatype HttpErrorResponse = HttpErrorResponse(status: nat, body: ErrorResponse)

  /** `ResponseError::error_response`. */
  function ErrorResponseOf(e: AppError): (r: HttpErrorResponse)
    ensures r.status == StatusCode(e) && r.body.status == r.status
    ensures r.body.error == Some(Display(e))
    ensures r.body.message == Summary(e)
  {
    HttpErrorResponse(StatusCode(e), ErrorResponse(Summary(e), Some(Display(e)), StatusCode(e)))
  }

  /** Nothing about the error is lost on the way to the client. */
  lemma ErrorResponseInjective(e1: AppError, e2: AppError)
    requires ErrorResponseOf(e1) == ErrorResponseOf(e2)
    ensures e1 == e2
  {
    DisplayInjective(e1, e2);
  }

  /** Diesel's errors, with `text` their own `Display` output. */
  datatype DieselError = DieselNotFound | DieselOther(text: string)

  /** `From<DieselError>`: only `NotFound` becomes a 404. */
  function FromDiesel(e: DieselError): (a: AppError)
    ensures a.NotFound? <==> e.DieselNotFound?
    ensures StatusCode(a) == (if e.DieselNotFound? then 404 else 500)
    ensures e.DieselOther? ==> a == Database(e.text)
  {
    match e
    case DieselNotFound => NotFound("Resource not found")
    case DieselOther(text) => Database(text)
  }

  /** `From<r2d2::Error>`: every pool error is a database error. */
  function FromPool(): (a: AppError)
    ensures a.Database? && StatusCode(a) == 500
  {
    Database("Failed to get database connection")
  }

  /** `JsonPayloadError`: a wrong content type, a deserialisation error
      (`isData` is serde_json's `is_data`, `text` its message), or any other
      payload error. */
  datatype JsonPayloadError = ContentType | Deserialize(isData: bool, text: string) | OtherPayload

  /** `From<JsonPayloadError>`: only data errors are validation failures;
      every outcome is a 400. */
  function FromJsonPayload(e: JsonPayloadError): (a: AppError)
    ensures a.Validation? <==> e.Deserialize? && e.isData
    ensures a.Validation? || a.BadRequest?
    ensures StatusCode(a) == 400
    ensures a.Validation? ==> a.msg == "Missing or invalid field: " + FieldName(e.text)
  {
    match e
    case ContentType => BadRequest("Invalid content type. Expected application/json")
    case Deserialize(isData, text) =>
      if isData then Validation("Missing or invalid field: " + FieldName(text))
      else BadRequest("Invalid JSON format")
    case OtherPayload => BadRequest("Error processing JSON data")
  }

  /** `json_error_handler`: a payload error is converted and answered with
      that error's response; it is always a 400. */
  function JsonErrorHandler(e: JsonPayloadError): (r: HttpErrorResponse)
    ensures r.status == 400 && r.body.status == 400
    ensures r.body.error == Some(Display(FromJsonPayload(e)))
    ensures r.body.message == (if e.Deserialize? && e.isData then "Validation failed" else "Invalid request")
  {
    ErrorResponseOf(FromJsonPayload(e))
  }

  /** `From<uuid::Error>`. */
  function FromUuidError(): (a: AppError)
    ensures a.BadRequest? && StatusCode(a) == 400
  {
    BadRequest("Invalid UUID format")
  }

  const FIELD_MARKER := "field `"

  /** The field name serde reports: `split("field `").nth(1)` and then
      `split('`').next()`, or "unknown" when the marker never occurs. The
      second piece of the first split ends where the next marker starts, so
      the name stops at the next backtick or at the next marker, whichever
      comes first. */
  function FieldName(s: string): (r: string)
    ensures forall k :: 0 <= k < |r| ==> r[k] != '`'
    ensures IndexOf(s, FIELD_MARKER).None? ==> r == "unknown"
    ensures IndexOf(s, FIELD_MARKER).Some? ==>
              var rest := s[IndexOf(s, FIELD_MARKER).value + |FIELD_MARKER|..];
              && r <= rest
              && (forall p :: 0 <= p < |r| ==> !OccursAt(rest, FIELD_MARKER, p))
              && (|r| == |rest| || rest[|r|] == '`' || OccursAt(rest, FIELD_MARKER, |r|))
  {
    match IndexOf(s, FIELD_MARKER)
    case None => "unknown"
    case Some(i) =>
      var rest := s[i + |FIELD_MARKER|..];
      var piece := match IndexOf(rest, FIELD_MARKER)
                   case None => rest
                   case Some(j) => rest[..j];
      match IndexOf(piece, "`")
      case None =>
        AbsentCharBefore(piece, '`', |piece|);
        piece
      case Some(k) =>
        AbsentCharBefore(piece, '`', k);
        assert OccursAt(piece, "`", k) && piece[k] == '`';
        piece[..k]
  }

  /** The `response::*` helpers: a fixed status and the given texts. */
  function BadRequestResponse(message: string, error: Option<string>): (r: HttpErrorResponse)
    ensures r.status == 400 && r.body == ErrorResponse(message, error, 400)
  {
    HttpErrorResponse(400, ErrorResponse(message, error, 400))
  }

  function NotFoundResponse(message: string, error: Option<string>): (r: HttpErrorResponse)
    ensures r.status == 404 && r.body == ErrorResponse(message, error, 404)
  {
    HttpErrorResponse(404, ErrorResponse(message, error, 404))
  }

  function ServerErrorResponse(message: string, error: Option<string>): (r: HttpErrorResponse)
    ensures r.status == 500 && r.body == ErrorResponse(message, error, 500)
  {
    HttpErrorResponse(500, ErrorResponse(message, error, 500))
  }

  function UnauthorizedResponse(message: string, error: Option<string>): (r: HttpErrorResponse)
    ensures r.status == 401 && r.body == ErrorResponse(message, error, 401)
  {
    HttpErrorResponse(401, ErrorResponse(message, error, 401))
  }

  /** A success body and its status, as `response::ok` and `response::created` send it. */
  datatype DataResponse<T> = DataResponse(status: nat, data: T)

  function OkResponse<T>(data: T): (r: DataResponse<T>)
    ensures r.status == 200 && r.data == data
  {
    DataResponse(200, data)
  }

  function CreatedResponse<T>(data: T): (r: DataResponse<T>)
    ensures r.status == 201 && r.data == data
  {
    DataResponse(201, data)
  }

  /** The helpers answer with the status `status_code` gives the matching
      variant, so both ways of building an error response agree. */
  lemma HelpersMatchStatusCodes(message: string, error: Option<string>, msg: string)
    ensures BadRequestResponse(message, error).status == StatusCode(BadRequest(msg))
    ensures NotFoundResponse(message, error).status == StatusCode(NotFound(msg))
    ensures ServerErrorResponse(message, error).status == StatusCode(InternalServer(msg))
    ensures UnauthorizedResponse(message, error).status == StatusCode(Unauthorized(msg))
  {
  }
}

=== FILE: auth_controller.dfy ===
/** Status selection of the auth endpoints (src/controllers/auth_controller.rs). */
module AuthController {
  import opened Common
  import Uuids
  import opened UserModel
  import opened AuthModel
  import opened AuthService

  /** The JSON bodies the endpoints send. */
  datatype Body =
    | TokenBody(response: TokenResponse)
    | ErrorBody(error: AuthError)
    | UserBody(info: UserInfo)
    | MessageBody(message: string)

  datatype HttpResponse = HttpResponse(status: nat, body: Body)

  /** `register`: 201 with the envelope; on failure the error is sent with a
      status chosen by its code. */
  function RegisterResponse(r: Result<TokenResponse, AuthError>): (resp: HttpResponse)
    ensures r.Ok? ==> resp == HttpResponse(201, TokenBody(r.value))
    ensures r.Err? ==> resp.body == ErrorBody(r.error) && resp.status in {409, 400, 500}
    ensures r.Err? ==> (resp.status == 409 <==> r.error.code == "EMAIL_EXISTS")
    ensures r.Err? ==> (resp.status == 400 <==> r.error.code == "PASSWORD_MISMATCH")
  {
    match r
    case Ok(envelope) => HttpResponse(201, TokenBody(envelope))
    case Err(error) =>
      if error.code == "EMAIL_EXISTS" then HttpResponse(409, ErrorBody(error))
      else if error.code == "PASSWORD_MISMATCH" then HttpResponse(400, ErrorBody(error))
      else HttpResponse(500, ErrorBody(error))
  }

  /** `login`: 200 with the envelope, 401 for bad credentials, 500 otherwise. */
  function LoginResponse(r: Result<TokenResponse, AuthError>): (resp: HttpResponse)
    ensures r.Ok? ==> resp == HttpResponse(200, TokenBody(r.value))
    ensures r.Err? ==> resp.body == ErrorBody(r.error) && resp.status in {401, 500}
    ensures r.Err? ==> (resp.status == 401 <==> r.error.code == "INVALID_CREDENTIALS")
  {
    match r
    case Ok(envelope) => HttpResponse(200, TokenBody(envelope))
    case Err(error) =>
      if error.code == "INVALID_CREDENTIALS" then HttpResponse(401, ErrorBody(error))
      else HttpResponse(500, ErrorBody(error))
  }

  /** `me`: the safe projection of the user with 200; 401 for the four
      header and token codes, 404 for a missing user, 500 for the rest,
      `INVALID_USER_ID` included. */
  function MeResponse(r: Result<User, AuthError>): (resp: HttpResponse)
    ensures r.Ok? ==> resp == HttpResponse(200, UserBody(ToUserInfo(r.value)))
    ensures r.Err? ==> resp.body == ErrorBody(r.error) && resp.status in {401, 404, 500}
    ensures r.Err? ==> (resp.status == 401 <==>
              r.error.code in {"MISSING_AUTH_HEADER", "INVALID_TOKEN", "INVALID_AUTH_HEADER", "INVALID_AUTH_FORMAT"})
    ensures r.Err? ==> (resp.status == 404 <==> r.error.code == "USER_NOT_FOUND")
  {
    match r
    case Ok(user) => HttpResponse(200, UserBody(ToUserInfo(user)))
    case Err(error) =>
      if error.code in {"MISSING_AUTH_HEADER", "INVALID_TOKEN", "INVALID_AUTH_HEADER", "INVALID_AUTH_FORMAT"}
      then HttpResponse(401, ErrorBody(error))
      else if error.code == "USER_NOT_FOUND" then HttpResponse(404, ErrorBody(error))
      else HttpResponse(500, ErrorBody(error))
  }

  const LOGOUT_MESSAGE := "Logout successful. Please delete the token from client storage."

  /** `logout`: tokens are stateless, so there is nothing to revoke. */
  function LogoutResponse(): (resp: HttpResponse)
    ensures resp.status == 200 && resp.body.MessageBody?
    ensures resp.body.message == "Logout successful. Please delete the token from client storage."
  {
    HttpResponse(200, MessageBody(LOGOUT_MESSAGE))
  }

  /** The status `me` gives each failure, as a closed table over kinds. */
  function MeStatusOf(k: ErrorKind): nat {
    match k
    case MissingAuthHeader | InvalidAuthHeader | InvalidAuthFormat | InvalidToken => 401
    case UserNotFound => 404
    case _ => 500
  }

  /** Matching on code strings agrees with the table over kinds; in
      particular `INVALID_USER_ID` is a server error. */
  lemma MeStatusTable(k: ErrorKind)
    ensures MeResponse(Err(ErrorOf(k))).status == MeStatusOf(k)
    ensures MeResponse(Err(ErrorOf(InvalidUserId))).status == 500
  {
  }

  /** What a client of `/auth/register` sees, in terms of the request and the
      table. */
  lemma RegisterStatuses(infra: Infra, ports: Ports, secret: string, store: Store,
                         req: RegisterRequest, freshId: Uuids.Uuid, now: int)
    ensures var o := Register(infra, ports, secret, store, req, freshId, now);
            var resp := RegisterResponse(o.result);
            && (resp.status == 201 <==> o.result.Ok?)
            && (resp.status == 400 <==> infra.poolOk && req.password != req.confirmPassword)
            && (resp.status == 409 <==> infra.poolOk && req.password == req.confirmPassword && infra.queryOk
                                        && FindUser(store, ByEmail(req.email)).Some?)
  {
  }

  /** What a client of `/auth/login` sees. */
  lemma LoginStatuses(infra: Infra, ports: Ports, secret: string, store: Store, req: LoginRequest, now: int)
    ensures var resp := LoginResponse(Login(infra, ports, secret, store, req, now));
            && (resp.status == 200 <==> Login(infra, ports, secret, store, req, now).Ok?)
            && (resp.status == 401 <==>
                  infra.poolOk && infra.queryOk
                  && (FindUser(store, ByEmail(req.email)).None?
                      || ports.verify(req.password, FindUser(store, ByEmail(req.email)).value.password) == Some(false)))
  {
  }

  /** `/auth/me` answers 401 exactly for a bad header or token. */
  lemma MeUnauthorizedStatuses(infra: Infra, ports: Ports, secret: string, store: Store,
                               header: Option<seq<byte>>, now: int)
    ensures MeResponse(GetCurrentUser(infra, ports, secret, store, header, now)).status == 401
            <==> ExtractToken(header).Err? || ports.validate(ExtractToken(header).value, secret, now).None?
  {
    if header.None? {
      MeStatusTable(MissingAuthHeader);
    } else if HeaderToStr(header.value).None? {
      MeStatusTable(InvalidAuthHeader);
    } else if ExtractToken(header).Err? {
      MeStatusTable(InvalidAuthFormat);
    } else if ports.validate(ExtractToken(header).value, secret, now).None? {
      MeStatusTable(InvalidToken);
    } else if Subject(ports, secret, header, now).None? {
      MeStatusTable(InvalidUserId);
    } else if !infra.poolOk {
      MeStatusTable(DbConnection);
    } else if !infra.queryOk {
      MeStatusTable(DbQuery);
    } else {
      MeStatusTable(UserNotFound);
    }
  }

  /** With a well-formed subject and a working store, `/auth/me` answers 404
      exactly when no row has that id, and otherwise 200 with the row's
      projection. */
  lemma MeLookupStatuses(infra: Infra, ports: Ports, secret: string, store: Store,
                         header: Option<seq<byte>>, now: int)
    requires Subject(ports, secret, header, now).Some? && infra.poolOk && infra.queryOk
    ensures var resp := MeResponse(GetCurrentUser(infra, ports, secret, store, header, now));
            var row := FindUser(store, ById(Subject(ports, secret, header, now).value));
            && (resp.status == 404 <==> row.None?)
            && (resp.status == 200 <==> row.Some?)
            && (row.Some? ==> resp.body == UserBody(ToUserInfo(row.value)))
  {
  }

  /** A subject that is not a UUID, a failed pool or a failed query is a 500. */
  lemma MeServerErrors(infra: Infra, ports: Ports, secret: string, store: Store,
                       header: Option<seq<byte>>, now: int)
    requires ExtractToken(header).Ok? && ports.validate(ExtractToken(header).value, secret, now).Some?
    requires Subject(ports, secret, header, now).None? || !infra.poolOk || !infra.queryOk
    ensures MeResponse(GetCurrentUser(infra, ports, secret, store, header, now)).status == 500
  {
  }
}

=== FILE: auth_flows.dfy ===
/** Properties that relate several calls of the authentication flows. */
module AuthFlows {
  import opened Common
  import Uuids
  import opened UserModel
  import opened AuthModel
  import opened AuthService
  import Text
  import Config

  /** A password mismatch is reported without a lookup, a hash or an insert:
      neither the table, the query and insert outcomes nor the libraries
      influence the answer, and the table stays as it was. */
  lemma RegisterMismatchTouchesNothing(infra1: Infra, infra2: Infra, ports1: Ports, ports2: Ports,
                                       secret: string, store1: Store, store2: Store,
                                       req: RegisterRequest, id1: Uuids.Uuid, id2: Uuids.Uuid, now: int)
    requires infra1.poolOk && infra2.poolOk
    requires req.password != req.confirmPassword
    ensures Register(infra1, ports1, secret, store1, req, id1, now).result
            == Register(infra2, ports2, secret, store2, req, id2, now).result
            == Err(AuthError("Passwords do not match", "PASSWORD_MISMATCH"))
    ensures Register(infra1, ports1, secret, store1, req, id1, now).store == store1
  {
  }

  /** A failed pool wins over every other failure, even a password mismatch. */
  lemma RegisterConnectionFirst(infra: Infra, ports: Ports, secret: string, store: Store,
                                req: RegisterRequest, freshId: Uuids.Uuid, now: int)
    requires !infra.poolOk
    ensures Register(infra, ports, secret, store, req, freshId, now)
            == Registered(Err(AuthError("Database connection failed", "DB_CONNECTION_ERROR")), store)
  {
  }

  /** A taken email is reported before any hashing: the answer does not
      depend on the hash function or on the insert outcome. */
  lemma RegisterTakenEmailSkipsHash(infra1: Infra, infra2: Infra, ports1: Ports, ports2: Ports,
                                    secret: string, store: Store, req: RegisterRequest,
                                    id1: Uuids.Uuid, id2: Uuids.Uuid, now: int)
    requires infra1.poolOk && infra1.queryOk && infra2.poolOk && infra2.queryOk
    requires req.password == req.confirmPassword
    requires FindUser(store, ByEmail(req.email)).Some?
    ensures Register(infra1, ports1, secret, store, req, id1, now)
            == Register(infra2, ports2, secret, store, req, id2, now)
            == Registered(Err(AuthError("Email already exists", "EMAIL_EXISTS")), store)
  {
  }

  /** Anti-enumeration: an unknown email and a known email with a wrong
      password produce identical answers. */
  lemma LoginHidesWhetherEmailExists(infra: Infra, ports: Ports, secret: string, store: Store,
                                     unknown: LoginRequest, known: LoginRequest, now: int)
    requires infra.poolOk && infra.queryOk
    requires FindUser(store, ByEmail(unknown.email)).None?
    requires FindUser(store, ByEmail(known.email)).Some?
    requires ports.verify(known.password, FindUser(store, ByEmail(known.email)).value.password) == Some(false)
    ensures Login(infra, ports, secret, store, unknown, now)
            == Login(infra, ports, secret, store, known, now)
            == Err(AuthError("Invalid credentials", "INVALID_CREDENTIALS"))
  {
  }

  ghost predicate EmailsUnique(store: Store) {
    forall i, j :: 0 <= i < j < |store| ==> store[i].email != store[j].email
  }

  ghost predicate IdsUnique(store: Store) {
    forall i, j :: 0 <= i < j < |store| ==> store[i].id != store[j].id
  }

  /** Run one at a time, registrations keep emails and ids unique. */
  lemma RegisterPreservesUniqueness(infra: Infra, ports: Ports, secret: string, store: Store,
                                    req: RegisterRequest, freshId: Uuids.Uuid, now: int)
    requires EmailsUnique(store) && IdsUnique(store)
    ensures EmailsUnique(Register(infra, ports, secret, store, req, freshId, now).store)
    ensures IdsUnique(Register(infra, ports, secret, store, req, freshId, now).store)
  {
    var o := Register(infra, ports, secret, store, req, freshId, now);
    if o.store != store {
      var u := o.store[|store|];
      assert o.store == store + [u] by {
        assert o.store[..|store|] == store;
      }
      forall i | 0 <= i < |store|
        ensures store[i].email != u.email && store[i].id != u.id
      {
      }
    }
  }

  /** The password a user registered with logs that user in, provided bcrypt
      accepts its own hash and signing succeeds. */
  lemma RegisteredUserCanLogIn(infra: Infra, ports: Ports, secret: string, store: Store,
                               req: RegisterRequest, freshId: Uuids.Uuid, now: int,
                               later: Infra, loginTime: int)
    requires ReachesInsert(infra, ports, store, req) && infra.insertOk && FindUser(store, ById(freshId)).None?
    requires GenerateToken(ports, secret, NewRow(ports, req, freshId, now), now).Some?
    requires later.poolOk && later.queryOk
    requires ports.verify(req.password, ports.hash(req.password).value) == Some(true)
    requires GenerateToken(ports, secret, NewRow(ports, req, freshId, now), loginTime).Some?
    ensures Register(infra, ports, secret, store, req, freshId, now).result.Ok?
    ensures var o := Register(infra, ports, secret, store, req, freshId, now);
            && Login(later, ports, secret, o.store, LoginRequest(req.email, req.password), loginTime).Ok?
            && Login(later, ports, secret, o.store, LoginRequest(req.email, req.password), loginTime).value.user
               == o.result.value.user
  {
    var o := Register(infra, ports, secret, store, req, freshId, now);
    var u := o.store[|store|];
    assert o.store == store + [u] by {
      assert o.store[..|store|] == store;
    }
    FindUserAppend(store, u, ByEmail(req.email));
  }

  /** The token codec behaves: every token signed with `secret` consists of
      characters a header can carry and, at any time `at` before its expiry,
      decodes with `secret` to the claims it was made from. Expired tokens
      are not constrained. */
  ghost predicate CodecSound(ports: Ports, secret: string, at: int) {
    forall c: Claims {:trigger ports.sign(c, secret)} :: ports.sign(c, secret).Some? ==>
      && HeaderText(ports.sign(c, secret).value)
      && (at < c.exp ==> ports.validate(ports.sign(c, secret).value, secret, at) == Some(c))
  }

  /** Within its day, an issued token decodes to claims naming its user. */
  lemma IssuedTokenDecodes(ports: Ports, secret: string, user: User, now: int, at: int)
    requires CodecSound(ports, secret, at)
    requires 0 <= now <= at < now + TOKEN_TTL_SECONDS < USIZE_LIMIT
    requires GenerateToken(ports, secret, user, now).Some?
    ensures HeaderText(GenerateToken(ports, secret, user, now).value)
    ensures var c := ports.validate(GenerateToken(ports, secret, user, now).value, secret, at);
            && c.Some? && c.value.sub == Uuids.ToString(user.id) && Uuids.Parse(c.value.sub) == Some(user.id)
            && c.value.email == user.email
            && c.value.iat == now && c.value.exp == now + TOKEN_TTL_SECONDS
  {
    var c := TokenClaims(user, now);
    assert ports.sign(c, secret) == GenerateToken(ports, secret, user, now);
  }

  /** Presenting the token register returned, within the day it is valid,
      `/auth/me` finds the user that was registered. */
  lemma RegisteredUserIsCurrentUser(infra: Infra, ports: Ports, secret: string, store: Store,
                                    req: RegisterRequest, freshId: Uuids.Uuid, now: int,
                                    later: Infra, at: int)
    requires Register(infra, ports, secret, store, req, freshId, now).result.Ok?
    requires later.poolOk && later.queryOk
    requires CodecSound(ports, secret, at)
    requires 0 <= now <= at < now + TOKEN_TTL_SECONDS < USIZE_LIMIT
    ensures var o := Register(infra, ports, secret, store, req, freshId, now);
            && HeaderText(BEARER_PREFIX + o.result.value.token)
            && GetCurrentUser(later, ports, secret, o.store, Some(EncodeHeader(BEARER_PREFIX + o.result.value.token)), at)
               == Ok(o.store[|store|])
            && ToUserInfo(o.store[|store|]) == o.result.value.user
  {
    var o := Register(infra, ports, secret, store, req, freshId, now);
    var u := o.store[|store|];
    var token := o.result.value.token;
    IssuedTokenDecodes(ports, secret, u, now, at);
    ExtractTokenRoundTrip(token);
    assert o.store == store + [u] by {
      assert o.store[..|store|] == store;
    }
    FindUserAppend(store, u, ById(freshId));
  }

  /** After a startup that passed validation, the token functions use the
      configured secret of at least 32 bytes; the built-in fallback is only
      reachable when `JWT_SECRET` is unset, and then start-up fails. */
  lemma SecretAfterStartup(env: Config.Env)
    ensures Config.ValidateEnvironment(env) == Pass ==>
              && Config.GetJwtSecret(env).Ok? && SecretOf(env) == Config.GetJwtSecret(env).value
              && Text.Utf8Length(SecretOf(env)) >= Config.MIN_SECRET_BYTES
    ensures "JWT_SECRET" !in env ==> SecretOf(env) == FALLBACK_SECRET && Config.ValidateEnvironment(env).Fail?
  {
  }
}

=== FILE: auth_middleware.dfy ===
/** `jwt_validator` (src/middleware/auth_middleware.rs) as a two-outcome
    decision: continue with the claims attached, or abort with a Bearer
    challenge before any handler runs. */
module AuthMiddleware {
  import opened Common
  import opened AuthModel
  import opened AuthService

  /** The bearer extractor's configuration (`Config`): realm and scope of the
      `WWW-Authenticate` challenge. */
  datatype BearerConfig = BearerConfig(realm: Option<string>, scope: Option<string>)

  /** An inbound request: everything the validator leaves alone is `rest`;
      `appConfig` is the `Config` registered as app data, if any; `claims`
      is the `Claims` slot of the request extensions. */
  datatype ServiceRequest<Rest> = ServiceRequest(rest: Rest, appConfig: Option<BearerConfig>, claims: Option<Claims>)

  datatype Decision<Rest> =
    | Continue(req: ServiceRequest<Rest>)
    | Abort(challenge: BearerConfig, req: ServiceRequest<Rest>)

  /** The challenge configuration: the app's `Config` or the default one,
      with its scope set to `Bearer`. */
  function ChallengeFor<Rest>(req: ServiceRequest<Rest>): (c: BearerConfig)
    ensures c.scope == Some("Bearer")
    ensures c.realm == (if req.appConfig.Some? then req.appConfig.value.realm else None)
  {
    var base := if req.appConfig.Some? then req.appConfig.value else BearerConfig(None, None);
    base.(scope := Some("Bearer"))
  }

  /** `jwt_validator`; `credentials` is the token of the bearer credential
      the framework extracted. */
  function JwtValidator<Rest>(ports: Ports, secret: string, now: int,
                              req: ServiceRequest<Rest>, credentials: string): (d: Decision<Rest>)
    ensures d.Continue? <==> ports.validate(credentials, secret, now).Some?
    ensures d.Continue? ==> d.req == req.(claims := ports.validate(credentials, secret, now))
    ensures d.Continue? ==> d.req.rest == req.rest && d.req.appConfig == req.appConfig
    ensures d.Abort? ==> d.req == req && d.challenge == ChallengeFor(req) && d.challenge.scope == Some("Bearer")
  {
    match ports.validate(credentials, secret, now)
    case Some(claims) => Continue(req.(claims := Some(claims)))
    case None => Abort(ChallengeFor(req), req)
  }

  /** The middleware and `/auth/me` agree on which tokens are good: the
      middleware aborts exactly when the service reports `INVALID_TOKEN` for
      the same token sent as `Bearer <token>`. */
  lemma MiddlewareAgreesWithService<Rest>(ports: Ports, secret: string, now: int,
                                          req: ServiceRequest<Rest>, token: string,
                                          infra: Infra, store: Store)
    requires HeaderText(token)
    ensures HeaderText(BEARER_PREFIX + token)
    ensures JwtValidator(ports, secret, now, req, token).Abort?
            <==> GetCurrentUser(infra, ports, secret, store, Some(EncodeHeader(BEARER_PREFIX + token)), now)
                 == Err(ErrorOf(InvalidToken))
  {
    ExtractTokenRoundTrip(token);
  }
}

=== FILE: auth_model.dfy ===
/** Request, response, claim and error shapes of the authentication flows
    (src/models/auth.rs). */
module AuthModel {
  import opened Common
  import Uuids
  import opened UserModel

  const USIZE_LIMIT: nat := 0x1_0000_0000_0000_0000

  /** A 64-bit `usize`. */
  type usize = x: int | 0 <= x < USIZE_LIMIT

  /** Rust's `i64 as usize` on a 64-bit target: reinterpretation modulo 2^64. */
  function AsUsize(t: int): (r: usize)
    ensures 0 <= t < USIZE_LIMIT ==> r == t
    ensures (r - t) % USIZE_LIMIT == 0
  {
    t % USIZE_LIMIT
  }

  datatype LoginRequest = LoginRequest(email: string, password: string)

  datatype RegisterRequest = RegisterRequest(
    firstName: string,
    lastName: string,
    email: string,
    password: string,
    confirmPassword: string)

  /** The JWT payload: subject (the user id as text), email, expiry and
      issued-at, in seconds since the epoch. */
  datatype Claims = Claims(sub: string, email: string, exp: usize, iat: usize)

  /** `Claims::new`; `now` is the reading of the clock taken inside it. */
  function NewClaims(userId: Uuids.Uuid, email: string, exp: usize, now: int): (c: Claims)
    ensures c.sub == Uuids.ToString(userId) && Uuids.Parse(c.sub) == Some(userId)
    ensures c.email == email && c.exp == exp
    ensures c.iat == AsUsize(now) && (0 <= now < USIZE_LIMIT ==> c.iat == now)
  {
    Uuids.ParseToString(userId);
    Claims(Uuids.ToString(userId), email, exp, AsUsize(now))
  }

  /** The user projection that is safe to return: no password field. */
  datatype UserInfo = UserInfo(id: Uuids.Uuid, firstName: string, lastName: string, email: string)

  function ToUserInfo(u: User): (info: UserInfo)
    ensures info.id == u.id && info.firstName == u.firstName
    ensures info.lastName == u.lastName && info.email == u.email
  {
    UserInfo(u.id, u.firstName, u.lastName, u.email)
  }

  /** Whatever the stored hash is, the projection is the same. */
  lemma UserInfoHidesPassword(u: User, otherHash: string)
    ensures ToUserInfo(u.(password := otherHash)) == ToUserInfo(u)
  {
  }

  /** The envelope returned by register and login. */
  datatype TokenResponse = TokenResponse(token: string, tokenType: string, expiresIn: int, user: UserInfo)

  /** A failure of a flow: a human message and a machine code. */
  datatype AuthError = AuthError(message: string, code: string)

  /** Every failure the flows produce. */
  datatype ErrorKind =
    | DbConnection | DbQuery | PasswordMismatch | EmailExists | HashFailed
    | UserCreation | TokenFailed | InvalidCredentials | VerificationFailed
    | InvalidToken | InvalidUserId | UserNotFound
    | MissingAuthHeader | InvalidAuthHeader | InvalidAuthFormat

  function Code(k: ErrorKind): string {
    match k
    case DbConnection => "DB_CONNECTION_ERROR"
    case DbQuery => "DB_QUERY_ERROR"
    case PasswordMismatch => "PASSWORD_MISMATCH"
    case EmailExists => "EMAIL_EXISTS"
    case HashFailed => "HASH_ERROR"
    case UserCreation => "USER_CREATION_ERROR"
    case TokenFailed => "TOKEN_ERROR"
    case InvalidCredentials => "INVALID_CREDENTIALS"
    case VerificationFailed => "VERIFICATION_ERROR"
    case InvalidToken => "INVALID_TOKEN"
    case InvalidUserId => "INVALID_USER_ID"
    case UserNotFound => "USER_NOT_FOUND"
    case MissingAuthHeader => "MISSING_AUTH_HEADER"
    case InvalidAuthHeader => "INVALID_AUTH_HEADER"
    case InvalidAuthFormat => "INVALID_AUTH_FORMAT"
  }

  function Message(k: ErrorKind): string {
    match k
    case DbConnection => "Database connection failed"
    case DbQuery => "Database query failed"
    case PasswordMismatch => "Passwords do not match"
    case EmailExists => "Email already exists"
    case HashFailed => "Password hashing failed"
    case UserCreation => "Failed to create user"
    case TokenFailed => "Token generation failed"
    case InvalidCredentials => "Invalid credentials"
    case VerificationFailed => "Password verification failed"
    case InvalidToken => "Invalid token"
    case InvalidUserId => "Invalid user ID in token"
    case UserNotFound => "User not found"
    case MissingAuthHeader => "Missing Authorization header"
    case InvalidAuthHeader => "Invalid Authorization header"
    case InvalidAuthFormat => "Invalid Authorization format"
  }

  /** The `(message, code)` pair the flows report for `k`. */
  function ErrorOf(k: ErrorKind): AuthError {
    AuthError(Message(k), Code(k))
  }

  /** The code alone identifies the failure: downstream status selection
      that matches on the code string loses nothing. */
  lemma CodeDeterminesKind(k1: ErrorKind, k2: ErrorKind)
    requires Code(k1) == Code(k2)
    ensures k1 == k2
  {
  }

  /** Distinct failures are reported as distinct pairs, and each pair is
      spelled out by its code and message tables. */
  lemma ErrorOfInjective(k1: ErrorKind, k2: ErrorKind)
    ensures ErrorOf(k1).code == Code(k1) && ErrorOf(k1).message == Message(k1)
    ensures ErrorOf(k1) == ErrorOf(k2) <==> k1 == k2
  {
    if ErrorOf(k1) == ErrorOf(k2) {
      CodeDeterminesKind(k1, k2);
    }
  }
}

=== FILE: auth_service.dfy ===
/** The authentication flows of `AuthService` (src/services/auth_service.rs):
    registration, login, the current-user lookup behind `/auth/me`, and the
    bearer-header parser they share. */
module AuthService {
  import opened Common
  import Uuids
  import opened UserModel
  import opened AuthModel

  /** The libraries the service calls, each allowed to fail (`None`):
      - `hash(password)`: bcrypt with the default cost;
      - `verify(password, hash)`: `Some(false)` is a clean mismatch;
      - `sign(claims, secret)`: HS256 encoding with the default header;
      - `validate(token, secret, now)`: HS256 decoding, signature and expiry. */
  datatype Ports = Ports(
    hash: string -> Option<string>,
    verify: (string, string) -> Option<bool>,
    sign: (Claims, string) -> Option<string>,
    validate: (string, string, int) -> Option<Claims>)

  /** What the storage layer does on this request: whether a pooled
      connection is handed out, whether a lookup query runs without error,
      and whether an insert is accepted (besides the primary key). */
  datatype Infra = Infra(poolOk: bool, queryOk: bool, insertOk: bool)

  /** The `users` table, in the order rows were inserted. */
  type Store = seq<User>

  /** Used when `JWT_SECRET` is not set; the secret is read on every call. */
  const FALLBACK_SECRET := "your-secret-key"

  /** Fixed token lifetime: 24 hours, in seconds. */
  const TOKEN_TTL_SECONDS := 24 * 3600

  /** The secret the token functions read from the environment. */
  function SecretOf(env: map<string, string>): string {
    if "JWT_SECRET" in env then env["JWT_SECRET"] else FALLBACK_SECRET
  }

  /** How a query selects rows: `filter(email.eq(..))` or `find(id)`. */
  datatype Key = ByEmail(email: string) | ById(id: Uuids.Uuid)

  predicate Matches(u: User, key: Key) {
    match key
    case ByEmail(email) => u.email == email
    case ById(id) => u.id == id
  }

  /** A matching row, as `.first().optional()` returns one; the model picks
      the earliest inserted. */
  function FindUser(store: Store, key: Key): (r: Option<User>)
    ensures r.Some? ==> r.value in store && Matches(r.value, key)
    ensures r.None? <==> forall i :: 0 <= i < |store| ==> !Matches(store[i], key)
  {
    if |store| == 0 then None
    else if Matches(store[0], key) then Some(store[0])
    else FindUser(store[1..], key)
  }

  /** Appending a row leaves an earlier match first, and makes the new row
      the match when there was none. */
  lemma {:induction false} FindUserAppend(store: Store, u: User, key: Key)
    ensures FindUser(store, key).Some? ==> FindUser(store + [u], key) == FindUser(store, key)
    ensures FindUser(store, key).None? && Matches(u, key) ==> FindUser(store + [u], key) == Some(u)
  {
    if |store| > 0 {
      assert (store + [u])[1..] == store[1..] + [u];
      FindUserAppend(store[1..], u, key);
    }
  }

  /** The claims `generate_token` signs: expiry 24 hours after `now`, and
      issued-at from the same clock. */
  function TokenClaims(user: User, now: int): (c: Claims)
    ensures c.sub == Uuids.ToString(user.id) && Uuids.Parse(c.sub) == Some(user.id) && c.email == user.email
    ensures 0 <= now && now + TOKEN_TTL_SECONDS < USIZE_LIMIT ==>
              c.iat == now && c.exp == c.iat + TOKEN_TTL_SECONDS
  {
    NewClaims(user.id, user.email, AsUsize(now + TOKEN_TTL_SECONDS), now)
  }

  /** `generate_token`: a token signed with `secret` whose claims name the
      user and expire 24 hours after `now`. */
  function GenerateToken(ports: Ports, secret: string, user: User, now: int): (r: Option<string>)
    ensures exists c: Claims ::
              && ports.sign(c, secret) == r
              && c.sub == Uuids.ToString(user.id) && Uuids.Parse(c.sub) == Some(user.id)
              && c.email == user.email
              && (0 <= now && now + TOKEN_TTL_SECONDS < USIZE_LIMIT ==>
                    c.iat == now && c.exp == now + TOKEN_TTL_SECONDS)
  {
    ports.sign(TokenClaims(user, now), secret)
  }

  /** The envelope register and login return for `user`: a bearer token
      valid for a day, and the user without the password hash. */
  function Envelope(token: string, user: User): (e: TokenResponse)
    ensures e.token == token && e.tokenType == "Bearer" && e.expiresIn == 86400
    ensures e.user.id == user.id && e.user.email == user.email
    ensures e.user.firstName == user.firstName && e.user.lastName == user.lastName
  {
    TokenResponse(token, "Bearer", TOKEN_TTL_SECONDS, ToUserInfo(user))
  }

  /** `HeaderValue::to_str`: succeeds when every byte is a tab or visible
      ASCII, and then reads each byte as a character. */
  predicate VisibleAscii(b: byte) {
    (32 <= b < 127) || b == 9
  }

  function HeaderToStr(h: seq<byte>): (r: Option<string>)
    ensures r.Some? <==> forall i :: 0 <= i < |h| ==> VisibleAscii(h[i])
    ensures r.Some? ==> |r.value| == |h| && forall i :: 0 <= i < |h| ==> r.value[i] as int == h[i]
  {
    if forall i :: 0 <= i < |h| ==> VisibleAscii(h[i])
    then Some(seq(|h|, i requires 0 <= i < |h| => (h[i] as char)))
    else None
  }

  /** Characters a header value can carry back through `HeaderToStr`. */
  predicate HeaderText(s: string) {
    forall i :: 0 <= i < |s| ==> (32 <= s[i] as int < 127) || s[i] == '\t'
  }

  /** The bytes a client sends for the header text `s`. */
  function EncodeHeader(s: string): (h: seq<byte>)
    requires HeaderText(s)
    ensures HeaderToStr(h) == Some(s)
  {
    var h := seq(|s|, i requires 0 <= i < |s| => (s[i] as int) as byte);
    assert HeaderToStr(h).value == s;
    h
  }

  const BEARER_PREFIX := "Bearer "

  /** `extract_token_from_request`; `header` is the first `Authorization`
      value, if any. */
  function ExtractToken(header: Option<seq<byte>>): (r: Result<string, AuthError>)
    ensures header.None? ==> r == Err(ErrorOf(MissingAuthHeader))
    ensures header.Some? && HeaderToStr(header.value).None? ==> r == Err(ErrorOf(InvalidAuthHeader))
    ensures (header.Some? && HeaderToStr(header.value).Some? && !(BEARER_PREFIX <= HeaderToStr(header.value).value))
              ==> r == Err(ErrorOf(InvalidAuthFormat))
    ensures r.Ok? ==> header.Some? && HeaderToStr(header.value) == Some(BEARER_PREFIX + r.value)
  {
    match header
    case None => Err(ErrorOf(MissingAuthHeader))
    case Some(h) =>
      match HeaderToStr(h)
      case None => Err(ErrorOf(InvalidAuthHeader))
      case Some(s) =>
        if !(BEARER_PREFIX <= s) then Err(ErrorOf(InvalidAuthFormat))
        else
          assert s == BEARER_PREFIX + s[|BEARER_PREFIX|..];
          Ok(s[|BEARER_PREFIX|..])
  }

  /** A client that sends `Bearer <token>` gets exactly `<token>` back. */
  lemma ExtractTokenRoundTrip(token: string)
    requires HeaderText(token)
    ensures HeaderText(BEARER_PREFIX + token)
    ensures ExtractToken(Some(EncodeHeader(BEARER_PREFIX + token))) == Ok(token)
  {
    var s := BEARER_PREFIX + token;
    assert forall i :: 0 <= i < |token| ==> s[|BEARER_PREFIX| + i] == token[i];
    assert s[|BEARER_PREFIX|..] == token;
  }

  /** The outcome of a registration, and the table after it. */
  datatype Registered = Registered(result: Result<TokenResponse, AuthError>, store: Store)

  /** Failures register can report. */
  predicate RegisterFailure(e: AuthError) {
    e in {ErrorOf(DbConnection), ErrorOf(PasswordMismatch), ErrorOf(DbQuery), ErrorOf(EmailExists),
          ErrorOf(HashFailed), ErrorOf(UserCreation), ErrorOf(TokenFailed)}
  }

  /** The row register inserts for `req`: the request's names and email, the
      hash of the password, the fresh id and the creation time. */
  ghost predicate RowFor(u: User, req: RegisterRequest, ports: Ports, freshId: Uuids.Uuid, now: int) {
    && ports.hash(req.password).Some?
    && u.password == ports.hash(req.password).value
    && u.firstName == req.firstName && u.lastName == req.lastName && u.email == req.email
    && u.id == freshId && u.createdAt == u.updatedAt == now
  }

  /** Every check before the insert passes: a connection, matching
      passwords, a working lookup that finds no row with the email, and a
      hash. */
  predicate ReachesInsert(infra: Infra, ports: Ports, store: Store, req: RegisterRequest) {
    && infra.poolOk && req.password == req.confirmPassword && infra.queryOk
    && FindUser(store, ByEmail(req.email)).None? && ports.hash(req.password).Some?
  }

  /** The row register builds for `req` once the password is hashed. */
  function NewRow(ports: Ports, req: RegisterRequest, freshId: Uuids.Uuid, now: int): User
    requires ports.hash(req.password).Some?
  {
    IntoUser(CreateNewUser(req.firstName, req.lastName, req.email, ports.hash(req.password).value, freshId, now))
  }

  /** `register_user`. The connection is taken before anything else is
      checked. The insert fails when the store refuses it or when the id is
      already a primary key. When signing fails after the insert, the new row
      stays. */
  function Register(infra: Infra, ports: Ports, secret: string, store: Store,
                    req: RegisterRequest, freshId: Uuids.Uuid, now: int): (o: Registered)
    ensures !infra.poolOk ==> o == Registered(Err(ErrorOf(DbConnection)), store)
    ensures infra.poolOk && req.password != req.confirmPassword ==>
              o == Registered(Err(ErrorOf(PasswordMismatch)), store)
    ensures (infra.poolOk && req.password == req.confirmPassword && infra.queryOk
               && FindUser(store, ByEmail(req.email)).Some?) ==> o == Registered(Err(ErrorOf(EmailExists)), store)
    ensures (infra.poolOk && req.password == req.confirmPassword && !infra.queryOk) ==>
              o == Registered(Err(ErrorOf(DbQuery)), store)
    ensures (infra.poolOk && req.password == req.confirmPassword && infra.queryOk
               && FindUser(store, ByEmail(req.email)).None? && ports.hash(req.password).None?)
              ==> o == Registered(Err(ErrorOf(HashFailed)), store)
    ensures (ReachesInsert(infra, ports, store, req) && (!infra.insertOk || FindUser(store, ById(freshId)).Some?))
              ==> o == Registered(Err(ErrorOf(UserCreation)), store)
    ensures o.result.Ok? <==>
              && ReachesInsert(infra, ports, store, req) && infra.insertOk && FindUser(store, ById(freshId)).None?
              && GenerateToken(ports, secret, NewRow(ports, req, freshId, now), now).Some?
    ensures o.result == Err(ErrorOf(TokenFailed)) <==>
              && ReachesInsert(infra, ports, store, req) && infra.insertOk && FindUser(store, ById(freshId)).None?
              && GenerateToken(ports, secret, NewRow(ports, req, freshId, now), now).None?
    ensures o.result.Err? ==> RegisterFailure(o.result.error)
    // At most one row is added; it is added exactly when the insert ran.
    ensures o.store == store || (|o.store| == |store| + 1 && o.store[..|store|] == store)
    ensures o.store != store <==> o.result.Ok? || o.result == Err(ErrorOf(TokenFailed))
    ensures o.store != store ==> RowFor(o.store[|store|], req, ports, freshId, now)
    ensures o.store != store ==> FindUser(store, ByEmail(req.email)).None? && FindUser(store, ById(freshId)).None?
    ensures o.result.Ok? ==> (
              && |o.store| == |store| + 1
              && o.result.value.tokenType == "Bearer"
              && o.result.value.expiresIn == 86400
              && o.result.value.user == ToUserInfo(o.store[|store|])
              && GenerateToken(ports, secret, o.store[|store|], now) == Some(o.result.value.token))
  {
    if !infra.poolOk then Registered(Err(ErrorOf(DbConnection)), store)
    else if req.password != req.confirmPassword then Registered(Err(ErrorOf(PasswordMismatch)), store)
    else if !infra.queryOk then Registered(Err(ErrorOf(DbQuery)), store)
    else if FindUser(store, ByEmail(req.email)).Some? then Registered(Err(ErrorOf(EmailExists)), store)
    else
      match ports.hash(req.password)
      case None => Registered(Err(ErrorOf(HashFailed)), store)
      case Some(hashed) =>
        var row := CreateNewUser(req.firstName, req.lastName, req.email, hashed, freshId, now);
        if !infra.insertOk || FindUser(store, ById(freshId)).Some? then
          Registered(Err(ErrorOf(UserCreation)), store)
        else
          var user := IntoUser(row);
          var store' := store + [user];
          assert store'[..|store|] == store && store'[|store|] == user;
          match GenerateToken(ports, secret, user, now)
          case None => Registered(Err(ErrorOf(TokenFailed)), store')
          case Some(token) => Registered(Ok(Envelope(token, user)), store')
  }

  /** `login_user`. It only reads the table. An unknown email and a wrong
      password give the same error. */
  function Login(infra: Infra, ports: Ports, secret: string, store: Store,
                 req: LoginRequest, now: int): (r: Result<TokenResponse, AuthError>)
    ensures !infra.poolOk ==> r == Err(ErrorOf(DbConnection))
    ensures infra.poolOk && !infra.queryOk ==> r == Err(ErrorOf(DbQuery))
    ensures infra.poolOk && infra.queryOk && FindUser(store, ByEmail(req.email)).None? ==>
              r == Err(ErrorOf(InvalidCredentials))
    ensures r.Err? ==> r.error in {ErrorOf(DbConnection), ErrorOf(DbQuery), ErrorOf(InvalidCredentials),
                                   ErrorOf(VerificationFailed), ErrorOf(TokenFailed)}
    ensures r == Err(ErrorOf(VerificationFailed)) <==>
              infra.poolOk && infra.queryOk && FindUser(store, ByEmail(req.email)).Some?
              && ports.verify(req.password, FindUser(store, ByEmail(req.email)).value.password).None?
    ensures infra.poolOk && infra.queryOk && FindUser(store, ByEmail(req.email)).Some? ==>
              var u := FindUser(store, ByEmail(req.email)).value;
              && (ports.verify(req.password, u.password) == Some(false) ==> r == Err(ErrorOf(InvalidCredentials)))
              && ((ports.verify(req.password, u.password) == Some(true) && GenerateToken(ports, secret, u, now).None?)
                    ==> r == Err(ErrorOf(TokenFailed)))
    ensures r.Ok? <==>
              && infra.poolOk && infra.queryOk && FindUser(store, ByEmail(req.email)).Some?
              && ports.verify(req.password, FindUser(store, ByEmail(req.email)).value.password) == Some(true)
              && GenerateToken(ports, secret, FindUser(store, ByEmail(req.email)).value, now).Some?
    ensures r.Ok? ==> (
              && FindUser(store, ByEmail(req.email)).Some?
              && var u := FindUser(store, ByEmail(req.email)).value;
              && ports.verify(req.password, u.password) == Some(true)
              && r.value.tokenType == "Bearer" && r.value.expiresIn == 86400
              && r.value.user == ToUserInfo(u)
              && GenerateToken(ports, secret, u, now) == Some(r.value.token))
  {
    if !infra.poolOk then Err(ErrorOf(DbConnection))
    else if !infra.queryOk then Err(ErrorOf(DbQuery))
    else
      match FindUser(store, ByEmail(req.email))
      case None => Err(ErrorOf(InvalidCredentials))
      case Some(user) =>
        match ports.verify(req.password, user.password)
        case None => Err(ErrorOf(VerificationFailed))
        case Some(false) => Err(ErrorOf(InvalidCredentials))
        case Some(true) =>
          match GenerateToken(ports, secret, user, now)
          case None => Err(ErrorOf(TokenFailed))
          case Some(token) => Ok(Envelope(token, user))
  }

  /** The id the bearer token names, when header, token and subject are all
      well formed. */
  function Subject(ports: Ports, secret: string, header: Option<seq<byte>>, now: int): Option<Uuids.Uuid> {
    match ExtractToken(header)
    case Err(_) => None
    case Ok(token) =>
      match ports.validate(token, secret, now)
      case None => None
      case Some(claims) => Uuids.Parse(claims.sub)
  }

  /** `get_current_user`. Header, token and subject are checked before a
      connection is requested. */
  function GetCurrentUser(infra: Infra, ports: Ports, secret: string, store: Store,
                          header: Option<seq<byte>>, now: int): (r: Result<User, AuthError>)
    ensures ExtractToken(header).Err? ==> r == Err(ExtractToken(header).error)
    ensures ExtractToken(header).Ok? && ports.validate(ExtractToken(header).value, secret, now).None? ==>
              r == Err(ErrorOf(InvalidToken))
    ensures (ExtractToken(header).Ok? && ports.validate(ExtractToken(header).value, secret, now).Some?
             && Subject(ports, secret, header, now).None?) ==> r == Err(ErrorOf(InvalidUserId))
    ensures Subject(ports, secret, header, now).Some? && !infra.poolOk ==> r == Err(ErrorOf(DbConnection))
    ensures Subject(ports, secret, header, now).Some? && infra.poolOk && !infra.queryOk ==> r == Err(ErrorOf(DbQuery))
    ensures Subject(ports, secret, header, now).Some? && infra.poolOk && infra.queryOk ==>
              var row := FindUser(store, ById(Subject(ports, secret, header, now).value));
              && (row.None? ==> r == Err(ErrorOf(UserNotFound)))
              && (row.Some? ==> r == Ok(row.value))
    ensures r == Err(ErrorOf(DbConnection)) ==>
              && ExtractToken(header).Ok?
              && ports.validate(ExtractToken(header).value, secret, now).Some?
              && Uuids.Parse(ports.validate(ExtractToken(header).value, secret, now).value.sub).Some?
              && !infra.poolOk
    ensures r == Err(ErrorOf(UserNotFound)) ==> infra.poolOk && infra.queryOk
    ensures r.Err? ==> r.error in {ErrorOf(MissingAuthHeader), ErrorOf(InvalidAuthHeader), ErrorOf(InvalidAuthFormat),
                                   ErrorOf(InvalidToken), ErrorOf(InvalidUserId), ErrorOf(DbConnection),
                                   ErrorOf(DbQuery), ErrorOf(UserNotFound)}
    ensures r.Ok? ==> && r.value in store
                      && ExtractToken(header).Ok?
                      && ports.validate(ExtractToken(header).value, secret, now).Some?
                      && Uuids.Parse(ports.validate(ExtractToken(header).value, secret, now).value.sub) == Some(r.value.id)
  {
    match ExtractToken(header)
    case Err(e) => Err(e)
    case Ok(token) =>
      match ports.validate(token, secret, now)
      case None => Err(ErrorOf(InvalidToken))
      case Some(claims) =>
        match Uuids.Parse(claims.sub)
        case None => Err(ErrorOf(InvalidUserId))
        case Some(userId) =>
          if !infra.poolOk then Err(ErrorOf(DbConnection))
          else if !infra.queryOk then Err(ErrorOf(DbQuery))
          else
            match FindUser(store, ById(userId))
            case None => Err(ErrorOf(UserNotFound))
            case Some(user) => Ok(user)
  }
}

=== FILE: common.dfy ===
/** Failure-carrying values shared by every module of the model. */
module Common {

  /** An optional value: `None` where the Rust code has `None`, `Err(_)` or a
      library failure whose payload is never inspected. */
  datatype Option<+T> = None | Some(value: T)

  /** Rust's `Result<T, E>`. */
  datatype Result<+T, +E> = Ok(value: T) | Err(error: E)

  /** A check that either passes or stops with an error (a panic, in the
      startup configuration). */
  datatype Outcome<+E> = Pass | Fail(error: E)

  /** An octet of an HTTP header value. */
  type byte = x: int | 0 <= x < 256
}

=== FILE: config.dfy ===
/** Startup configuration checks (src/config/mod.rs) over an environment
    map. A panic is a `Fail` carrying which check stopped start-up. */
module Config {
  import opened Common
  import opened Text

  type Env = map<string, string>

  datatype ConfigError =
    | Missing(name: string)
    | SecretTooShort
    | ExpirationNotNumber
    | UnknownEnvironment
    | InsecureProductionSecret
    | WeakDatabasePassword

  /** `env::var(name).expect(..)`. */
  function Require(env: Env, name: string): (r: Result<string, ConfigError>)
    ensures r.Ok? <==> name in env
    ensures r.Ok? ==> r.value == env[name]
    ensures r.Err? ==> r.error == Missing(name)
  {
    if name in env then Ok(env[name]) else Err(Missing(name))
  }

  function GetDatabaseUrl(env: Env): (r: Result<string, ConfigError>)
    ensures r.Ok? <==> "DATABASE_URL" in env
  {
    Require(env, "DATABASE_URL")
  }

  function GetServerUrl(env: Env): (r: Result<string, ConfigError>)
    ensures r.Ok? <==> "SERVER_URL" in env
  {
    Require(env, "SERVER_URL")
  }

  function GetRustLog(env: Env): (r: Result<string, ConfigError>)
    ensures r.Ok? <==> "RUST_LOG" in env
  {
    Require(env, "RUST_LOG")
  }

  const MIN_SECRET_BYTES := 32
  const MIN_PRODUCTION_SECRET_BYTES := 64

  /** `get_jwt_secret`: set, and at least 32 bytes of UTF-8. */
  function GetJwtSecret(env: Env): (r: Result<string, ConfigError>)
    ensures r.Ok? <==> "JWT_SECRET" in env && Utf8Length(env["JWT_SECRET"]) >= MIN_SECRET_BYTES
    ensures r.Ok? ==> r.value == env["JWT_SECRET"]
    ensures "JWT_SECRET" in env && r.Err? ==> r.error == SecretTooShort
  {
    match Require(env, "JWT_SECRET")
    case Err(e) => Err(e)
    case Ok(secret) =>
      if Utf8Length(secret) < MIN_SECRET_BYTES then Err(SecretTooShort) else Ok(secret)
  }

  /** `get_jwt_expiration_hours`: set, and a valid `u64`. The value is
      checked here but no token uses it. */
  function GetJwtExpirationHours(env: Env): (r: Result<nat, ConfigError>)
    ensures r.Ok? <==> "JWT_EXPIRATION_HOURS" in env && ParseU64(env["JWT_EXPIRATION_HOURS"]).Some?
    ensures r.Ok? ==> r.value < U64_LIMIT
    ensures "JWT_EXPIRATION_HOURS" in env && r.Err? ==> r.error == ExpirationNotNumber
  {
    match Require(env, "JWT_EXPIRATION_HOURS")
    case Err(e) => Err(e)
    case Ok(text) =>
      match ParseU64(text)
      case None => Err(ExpirationNotNumber)
      case Some(hours) => Ok(hours)
  }

  /** `get_environment`: exactly one of three names. */
  function GetEnvironment(env: Env): (r: Result<string, ConfigError>)
    ensures r.Ok? <==> "ENVIRONMENT" in env && env["ENVIRONMENT"] in {"development", "staging", "production"}
    ensures r.Ok? ==> r.value == env["ENVIRONMENT"]
  {
    match Require(env, "ENVIRONMENT")
    case Err(e) => Err(e)
    case Ok(name) =>
      if name == "development" || name == "staging" || name == "production" then Ok(name)
      else Err(UnknownEnvironment)
  }

  /** A secret fit for production: long, with no "dev" or "test" in it. */
  predicate ProductionSecretOk(secret: string) {
    !Contains(secret, "dev") && !Contains(secret, "test") && Utf8Length(secret) >= MIN_PRODUCTION_SECRET_BYTES
  }

  /** A database URL without the two weak passwords the check knows. */
  predicate ProductionDatabaseUrlOk(url: string) {
    !Contains(url, "passw0rd") && !Contains(url, "password")
  }

  /** `validate_production_config`. */
  function ValidateProductionConfig(env: Env): (r: Outcome<ConfigError>)
    ensures r.Pass? <==> && GetJwtSecret(env).Ok? && ProductionSecretOk(env["JWT_SECRET"])
                         && "DATABASE_URL" in env && ProductionDatabaseUrlOk(env["DATABASE_URL"])
  {
    match GetJwtSecret(env)
    case Err(e) => Fail(e)
    case Ok(secret) =>
      if !ProductionSecretOk(secret) then Fail(InsecureProductionSecret)
      else
        match GetDatabaseUrl(env)
        case Err(e) => Fail(e)
        case Ok(url) =>
          if !ProductionDatabaseUrlOk(url) then Fail(WeakDatabasePassword) else Pass
  }

  /** Every requirement start-up places on the environment, order-free. */
  ghost predicate StartupValid(env: Env) {
    && "DATABASE_URL" in env
    && "SERVER_URL" in env
    && "JWT_SECRET" in env && Utf8Length(env["JWT_SECRET"]) >= MIN_SECRET_BYTES
    && "JWT_EXPIRATION_HOURS" in env && ParseU64(env["JWT_EXPIRATION_HOURS"]).Some?
    && "RUST_LOG" in env
    && "ENVIRONMENT" in env && env["ENVIRONMENT"] in {"development", "staging", "production"}
    && (env["ENVIRONMENT"] == "production" ==>
          ProductionSecretOk(env["JWT_SECRET"]) && ProductionDatabaseUrlOk(env["DATABASE_URL"]))
  }

  /** `validate_environment`: the six variables in order, then the production
      checks when, and only when, the environment is "production". */
  function ValidateEnvironment(env: Env): (r: Outcome<ConfigError>)
    ensures r.Pass? <==> StartupValid(env)
    ensures "DATABASE_URL" !in env ==> r == Fail(Missing("DATABASE_URL"))
    ensures r == Fail(InsecureProductionSecret) || r == Fail(WeakDatabasePassword) ==>
              "ENVIRONMENT" in env && env["ENVIRONMENT"] == "production"
  {
    match GetDatabaseUrl(env)
    case Err(e) => Fail(e)
    case Ok(_) =>
      match GetServerUrl(env)
      case Err(e) => Fail(e)
      case Ok(_) =>
        match GetJwtSecret(env)
        case Err(e) => Fail(e)
        case Ok(_) =>
          match GetJwtExpirationHours(env)
          case Err(e) => Fail(e)
          case Ok(_) =>
            match GetRustLog(env)
            case Err(e) => Fail(e)
            case Ok(_) =>
              match GetEnvironment(env)
              case Err(e) => Fail(e)
              case Ok(environment) =>
                if environment == "production" then ValidateProductionConfig(env) else Pass
  }

  /** Outside production a secret of 32 bytes containing "dev" is accepted;
      in production the same environment is refused. */
  lemma ProductionIsStricter(env: Env)
    requires StartupValid(env) && env["ENVIRONMENT"] != "production"
    requires Contains(env["JWT_SECRET"], "dev")
    ensures ValidateEnvironment(env) == Pass
    ensures ValidateEnvironment(env["ENVIRONMENT" := "production"]) == Fail(InsecureProductionSecret)
  {
  }
}

=== FILE: text.dfy ===
/** String operations the Rust code takes from `str`: substring search
    (`contains`, `split`), UTF-8 byte length (`len`) and `parse::<u64>`. */
module Text {
  import opened Common

  /** `pat` occurs in `s` starting at index `i`. */
  ghost predicate OccursAt(s: string, pat: string, i: int) {
    0 <= i && i + |pat| <= |s| && s[i..i + |pat|] == pat
  }

  /** Index of the first occurrence of `pat` in `s` at or after `from`. */
  function IndexFrom(s: string, pat: string, from: nat): (r: Option<nat>)
    requires from <= |s|
    ensures r.Some? ==> from <= r.value && OccursAt(s, pat, r.value)
    ensures r.Some? ==> forall j :: from <= j < r.value ==> !OccursAt(s, pat, j)
    ensures r.None? ==> forall j :: from <= j ==> !OccursAt(s, pat, j)
    decreases |s| - from
  {
    if from + |pat| > |s| then None
    else if s[from..from + |pat|] == pat then Some(from)
    else if from == |s| then None
    else IndexFrom(s, pat, from + 1)
  }

  /** Index of the first occurrence of `pat` in `s`, as `str::find`. */
  function IndexOf(s: string, pat: string): (r: Option<nat>)
    ensures r.Some? ==> OccursAt(s, pat, r.value)
    ensures r.Some? ==> forall j :: 0 <= j < r.value ==> !OccursAt(s, pat, j)
    ensures r.None? ==> forall j :: !OccursAt(s, pat, j)
  {
    IndexFrom(s, pat, 0)
  }

  /** A one-character pattern that does not occur before `n` means the
      character is absent from `s[..n]`. */
  lemma AbsentCharBefore(s: string, c: char, n: nat)
    requires n <= |s|
    requires forall j :: 0 <= j < n ==> !OccursAt(s, [c], j)
    ensures forall k :: 0 <= k < n ==> s[k] != c
  {
    forall k | 0 <= k < n
      ensures s[k] != c
    {
      assert !OccursAt(s, [c], k);
      assert s[k..k + 1] == [s[k]];
    }
  }

  /** `str::contains`. */
  predicate Contains(s: string, pat: string)
    ensures Contains(s, pat) <==> exists j :: OccursAt(s, pat, j)
  {
    IndexOf(s, pat).Some?
  }

  /** Number of bytes the UTF-8 encoding of `c` takes. */
  function Utf8Width(c: char): (w: nat)
    ensures 1 <= w <= 4
    ensures w == 1 <==> (c as int) < 0x80
  {
    if (c as int) < 0x80 then 1
    else if (c as int) < 0x800 then 2
    else if (c as int) < 0x10000 then 3
    else 4
  }

  /** `str::len`: the length of the UTF-8 encoding of `s`, in bytes. */
  function Utf8Length(s: string): (n: nat)
    ensures |s| <= n <= 4 * |s|
    ensures n == |s| <==> forall i :: 0 <= i < |s| ==> (s[i] as int) < 0x80
  {
    if |s| == 0 then 0 else Utf8Width(s[0]) + Utf8Length(s[1..])
  }

  predicate IsDigit(c: char) {
    '0' <= c <= '9'
  }

  predicate AllDigits(s: string) {
    forall i :: 0 <= i < |s| ==> IsDigit(s[i])
  }

  /** The number a string of decimal digits denotes, most significant first. */
  function DigitsValue(ds: string): nat
    requires AllDigits(ds)
  {
    if |ds| == 0 then 0
    else DigitsValue(ds[..|ds| - 1]) * 10 + ((ds[|ds| - 1] as int) - ('0' as int))
  }

  const U64_LIMIT: nat := 0x1_0000_0000_0000_0000

  /** `str::parse::<u64>`: an optional `+`, then at least one ASCII digit;
      the value must fit in 64 bits. */
  function ParseU64(s: string): (r: Option<nat>)
    ensures r.Some? ==> r.value < U64_LIMIT
    ensures r.Some? ==> 0 < |s| && (AllDigits(s) || (s[0] == '+' && AllDigits(s[1..])))
    ensures |s| == 0 || s == "+" ==> r.None?
    ensures 0 < |s| && AllDigits(s) ==>
              r == (if DigitsValue(s) < U64_LIMIT then Some(DigitsValue(s)) else None)
    ensures 1 < |s| && s[0] == '+' && AllDigits(s[1..]) ==>
              r == (if DigitsValue(s[1..]) < U64_LIMIT then Some(DigitsValue(s[1..])) else None)
  {
    var body := if 0 < |s| && s[0] == '+' then s[1..] else s;
    if |body| == 0 || !AllDigits(body) then None
    else if DigitsValue(body) < U64_LIMIT then Some(DigitsValue(body))
    else None
  }

  /** Decimal form of `n` without leading zeros, as `u64::to_string`. */
  function Decimal(n: nat): (ds: string)
    ensures 0 < |ds| && AllDigits(ds)
  {
    var d := ['0' + ((n % 10) as char)];
    if n < 10 then d else Decimal(n / 10) + d
  }

  lemma {:induction false} DecimalValue(n: nat)
    ensures DigitsValue(Decimal(n)) == n
  {
    var ds := Decimal(n);
    if n >= 10 {
      DecimalValue(n / 10);
      assert ds[..|ds| - 1] == Decimal(n / 10);
    }
  }

  /** Reading back the decimal form of any 64-bit value gives that value. */
  lemma ParseDecimalRoundTrip(n: nat)
    requires n < U64_LIMIT
    ensures ParseU64(Decimal(n)) == Some(n)
  {
    DecimalValue(n);
  }
}

=== FILE: user_model.dfy ===
/** The `users` row and its insertable form (src/models/user.rs). */
module UserModel {
  import opened Uuids

  /** A `NaiveDateTime`, as an instant on a single clock. */
  type Timestamp = int

  /** A stored user. `password` holds the bcrypt hash, never the plaintext. */
  datatype User = User(
    id: Uuid,
    firstName: string,
    lastName: string,
    email: string,
    password: string,
    createdAt: Timestamp,
    updatedAt: Timestamp)

  /** The row handed to the insert statement. */
  datatype NewUser = NewUser(
    id: Uuid,
    firstName: string,
    lastName: string,
    email: string,
    password: string,
    createdAt: Timestamp,
    updatedAt: Timestamp)

  /** `NewUser::new`. The fresh id (`Uuid::new_v4`) and the clock reading are
      parameters: both are drawn once, so the two timestamps coincide. */
  function CreateNewUser(firstName: string, lastName: string, email: string, password: string,
                         freshId: Uuid, now: Timestamp): (n: NewUser)
    ensures n.firstName == firstName && n.lastName == lastName
    ensures n.email == email && n.password == password
    ensures n.createdAt == n.updatedAt == now
    ensures n.id == freshId
  {
    NewUser(freshId, firstName, lastName, email, password, now, now)
  }

  /** `NewUser::into_user`. */
  function IntoUser(n: NewUser): (u: User)
    ensures u.id == n.id && u.firstName == n.firstName && u.lastName == n.lastName
    ensures u.email == n.email && u.password == n.password
    ensures u.createdAt == n.createdAt && u.updatedAt == n.updatedAt
  {
    User(n.id, n.firstName, n.lastName, n.email, n.password, n.createdAt, n.updatedAt)
  }

  /** The id `NewUser::new` assigns depends on the generator alone: two calls
      with different field values but the same draw agree on the id. */
  lemma NewUserIdIgnoresFields(f1: string, l1: string, e1: string, p1: string,
                               f2: string, l2: string, e2: string, p2: string,
                               freshId: Uuid, t1: Timestamp, t2: Timestamp)
    ensures CreateNewUser(f1, l1, e1, p1, freshId, t1).id == CreateNewUser(f2, l2, e2, p2, freshId, t2).id
  {
  }
}

=== FILE: uuid.dfy ===
/** The `uuid` crate's text forms: `Uuid::to_string` (lower-case hyphenated)
    and `Uuid::parse_str` (simple, hyphenated, braced and URN forms). */
module Uuids {
  import opened Common

  type Nibble = x: int | 0 <= x < 16

  /** A UUID as its 32 hexadecimal digits (16 bytes), most significant first. */
  type Uuid = s: seq<Nibble> | |s| == 32 witness seq(32, _ => 0 as Nibble)

  function LowerHexDigit(n: Nibble): (c: char)
    ensures IsHexDigit(c) && HexValue(c) == n
  {
    if n < 10 then '0' + (n as char) else 'a' + ((n - 10) as char)
  }

  predicate IsHexDigit(c: char) {
    ('0' <= c <= '9') || ('a' <= c <= 'f') || ('A' <= c <= 'F')
  }

  function HexValue(c: char): Nibble
    requires IsHexDigit(c)
  {
    if '0' <= c <= '9' then (c - '0') as int
    else if 'a' <= c <= 'f' then (c - 'a') as int + 10
    else (c - 'A') as int + 10
  }

  /** Positions of the hyphens in the 36-character form. */
  predicate IsHyphenPosition(i: int) {
    i == 8 || i == 13 || i == 18 || i == 23
  }

  /** Where hex digit `j` sits in the hyphenated form: groups of
      8-4-4-4-12 digits, one hyphen between groups. */
  function CharIndex(j: nat): (i: nat)
    requires j < 32
    ensures i < 36 && !IsHyphenPosition(i)
  {
    j + (if j >= 8 then 1 else 0) + (if j >= 12 then 1 else 0)
      + (if j >= 16 then 1 else 0) + (if j >= 20 then 1 else 0)
  }

  /** Which hex digit a non-hyphen position of the hyphenated form holds. */
  function DigitIndex(i: nat): (j: nat)
    requires i < 36 && !IsHyphenPosition(i)
    ensures j < 32 && CharIndex(j) == i
  {
    i - (if i > 8 then 1 else 0) - (if i > 13 then 1 else 0)
      - (if i > 18 then 1 else 0) - (if i > 23 then 1 else 0)
  }

  /** `Uuid::to_string`: groups of 8-4-4-4-12 lower-case hex digits
      separated by hyphens. */
  function ToString(u: Uuid): (s: string)
    ensures |s| == 36
    ensures forall i :: 0 <= i < 36 ==> (s[i] == '-' <==> IsHyphenPosition(i))
    ensures forall i :: 0 <= i < 36 && !IsHyphenPosition(i) ==> IsHexDigit(s[i]) && !('A' <= s[i] <= 'F')
    ensures forall j :: 0 <= j < 32 ==> HexValue(s[CharIndex(j)]) == u[j]
  {
    seq(36, i requires 0 <= i < 36 =>
      if IsHyphenPosition(i) then '-' else LowerHexDigit(u[DigitIndex(i)]))
  }

  /** The 32-digit simple form; either letter case is accepted. */
  function ParseSimple(s: string): (r: Option<Uuid>)
    requires |s| == 32
    ensures r.Some? <==> forall i :: 0 <= i < 32 ==> IsHexDigit(s[i])
    ensures r.Some? ==> forall j :: 0 <= j < 32 ==> r.value[j] == HexValue(s[j])
  {
    if forall i :: 0 <= i < 32 ==> IsHexDigit(s[i])
    then Some(seq(32, i requires 0 <= i < 32 => HexValue(s[i])))
    else None
  }

  /** The shape of the hyphenated form: hyphens at 8, 13, 18 and 23, a hex
      digit of either case everywhere else. */
  predicate HyphenatedShape(s: string)
    requires |s| == 36
  {
    forall i :: 0 <= i < 36 ==> if IsHyphenPosition(i) then s[i] == '-' else IsHexDigit(s[i])
  }

  /** The 36-character hyphenated form: hyphens at 8, 13, 18 and 23. */
  function ParseHyphenated(s: string): (r: Option<Uuid>)
    requires |s| == 36
    ensures r.Some? <==> HyphenatedShape(s)
    ensures r.Some? ==> forall j :: 0 <= j < 32 ==> r.value[j] == HexValue(s[CharIndex(j)])
  {
    var digits := seq(32, j requires 0 <= j < 32 => s[CharIndex(j)]);
    HyphenatedDigits(s, digits);
    if s[8] == '-' && s[13] == '-' && s[18] == '-' && s[23] == '-'
    then ParseSimple(digits)
    else None
  }

  /** With the hyphens in place, the form is well shaped exactly when the
      32 digits taken out of it are all hex digits. */
  lemma HyphenatedDigits(s: string, digits: string)
    requires |s| == 36 && |digits| == 32
    requires forall j :: 0 <= j < 32 ==> digits[j] == s[CharIndex(j)]
    ensures HyphenatedShape(s) <==>
              && s[8] == '-' && s[13] == '-' && s[18] == '-' && s[23] == '-'
              && forall j :: 0 <= j < 32 ==> IsHexDigit(digits[j])
  {
    if s[8] == '-' && s[13] == '-' && s[18] == '-' && s[23] == '-'
       && forall j :: 0 <= j < 32 ==> IsHexDigit(digits[j])
    {
      forall i | 0 <= i < 36 && !IsHyphenPosition(i)
        ensures IsHexDigit(s[i])
      {
        assert digits[DigitIndex(i)] == s[i];
      }
    }
  }

  /** `Uuid::parse_str`. The crate dispatches on the byte length; any
      character outside ASCII makes every form fail, so counting characters
      instead of bytes accepts and rejects the same strings. */
  function Parse(s: string): (r: Option<Uuid>)
    ensures r.Some? ==> |s| in {32, 36, 38, 45}
    ensures |s| == 32 ==> (r.Some? <==> forall i :: 0 <= i < 32 ==> IsHexDigit(s[i]))
    ensures |s| == 32 && r.Some? ==> forall j :: 0 <= j < 32 ==> r.value[j] == HexValue(s[j])
    ensures |s| == 36 ==> (r.Some? <==> HyphenatedShape(s))
    ensures |s| == 36 && r.Some? ==> forall j :: 0 <= j < 32 ==> r.value[j] == HexValue(s[CharIndex(j)])
    ensures |s| == 38 ==> r == (if s[0] == '{' && s[37] == '}' then ParseHyphenated(s[1..37]) else None)
    ensures |s| == 45 ==> r == (if "urn:uuid:" <= s then ParseHyphenated(s[9..]) else None)
  {
    if |s| == 32 then ParseSimple(s)
    else if |s| == 36 then ParseHyphenated(s)
    else if |s| == 38 then
      if s[0] == '{' && s[37] == '}' then ParseHyphenated(s[1..37]) else None
    else if |s| == 45 then
      if "urn:uuid:" <= s then ParseHyphenated(s[9..]) else None
    else None
  }

  /** The subject a token carries parses back to the id it was made from. */
  lemma ParseToString(u: Uuid)
    ensures Parse(ToString(u)) == Some(u)
  {
    var s := ToString(u);
    var digits := seq(32, j requires 0 <= j < 32 => s[CharIndex(j)]);
    assert forall j :: 0 <= j < 32 ==> digits[j] == LowerHexDigit(u[j]);
    var back := seq(32, j requires 0 <= j < 32 => HexValue(digits[j]));
    assert back == u;
  }

  /** Distinct ids have distinct subjects. */
  lemma ToStringInjective(u: Uuid, v: Uuid)
    requires ToString(u) == ToString(v)
    ensures u == v
  {
    ParseToString(u);
    ParseToString(v);
  }
}
